=== FILE: README.md ===
# msl planning core in Dafny

`msl.py` is a batch front-end for the multipass virtual-machine manager. It
reads the `instances` mapping of a `multipass.yaml` manifest and reconciles it
with the live instances through the `launch`, `mount`, `stop` and `delete`
subcommands.

- `launch` decides a command for every name first, then spawns them all.
- `mount` spawns each command as soon as it decides it.
- `stop` and `delete` build one command each and spawn it.

This project models the decisions and returns them as a plan instead of
spawning anything. A plan is a sequence of steps. Each step is a command to
spawn or a diagnostic the source prints.

- The steps of a launch plan are the per-name decisions, in name order. The
  source prints every diagnostic (msl.py:44) before it spawns any command
  (msl.py:46). So the plan does not give the order of effects across names.
- The steps of a mount plan are in the order the source issues them.

The planner depends on these inputs:

- the manifest;
- the names the user gave;
- the live instance names (`multipass list`);
- the guest-name to source-path mounts that multipass reports for a live
  instance (`multipass info --all`);
- whether a host path exists.

The last three are passed in as `current`, `liveMounts` and `hostExists`.

Layout:

- `wrappers.dfy`: `Option` and `Result`.
- `tables.dfy`: Python dictionaries as ordered entry lists (`Table`).
  - Covers key order, `d[k]`, `d[k] = v`, filtering a key out, and the
    inverting comprehension.
- `commands.dfy`: the command, diagnostic, plan-step and exception datatypes.
  - `Render` builds the exact command line each f-string of the source builds.
- `msl.dfy`: the selector, the launch, mount, stop and delete planners, and
  the lemmas about them.
  - `launch` and `mount` loop and append, so they are methods (`PlanLaunch`,
    `PlanMount`, `PlanInstanceMounts`).
  - Each method is proved equal to a recursive specification function
    (`LaunchPlan`, `MountPlan`, `InstanceSteps`).
  - The lemmas are stated about those functions.

Exceptions the source raises while planning are modelled as values:

- A `KeyError` on `config[vm]` or on `config[vm]['mounts']` becomes an `Error`.
- An `AttributeError` from `.items()` on a mounts value that is not a mapping
  also becomes an `Error`.
- `launch` raises before it spawns anything, so its plan is a `Result`.
- `mount` spawns as it goes, so its plan is an `Outcome`: the steps issued
  before the exception, plus the exception.

The `"mounts"` test is kept as written:

- `launch` (msl.py:38) and `config_mounts` (msl.py:57) test
  `'mounts' in config.keys()`.
- That test asks whether the instances mapping has an instance named `mounts`.
  It does not ask whether the instance at hand has a mounts attribute.
- The evident intent is a guard that tests each instance's own mounts
  attribute, with an empty mapping for an instance that has none. The model
  keeps the guard as written.
- With no instance named `mounts`, an instance's own mounts are ignored by both
  `launch` and `mount` (`LaunchIgnoresOwnMounts`).
- With such an instance present, any other launchable instance that has no
  mounts attribute makes `launch` raise (`LaunchFailsBesideInstanceNamedMounts`).

## Model

| member | source | states |
|---|---|---|
| Msl.VirtualInstance | msl.py:24-30 | Non-empty targets are returned unchanged, unknown names included. No targets gives every manifest instance name, in manifest order. |
| Msl.ConfigMounts | msl.py:56-60 | Without an instance named "mounts", the result is an empty mapping. With one, the result is vm's mounts attribute. The lookup fails with UnknownInstance exactly when vm is not in the manifest, and fails at all exactly when vm or its mounts attribute is missing. A success is the value stored under "mounts" in vm's entry. |
| Msl.LaunchStep | msl.py:36-44 | A name that is live or not in the manifest gives the "not defined or exists already" diagnostic. Planning raises exactly when the name is launchable, an instance named "mounts" exists, and the name's own mounts attribute is missing or is not a mapping. |
| Msl.LaunchPlan | msl.py:33-44 | A successful launch plan has exactly one step per target name. |
| Msl.LaunchPlanAt | msl.py:35-44 | Step i of a successful plan is the step for the i-th name, so the steps follow target order. |
| Msl.LaunchCommandFor | msl.py:36-44 | A target gets a launch command exactly when it is not live and is in the manifest; every other target gets the diagnostic. The command is named after the target. Its options are the instance's attributes except mounts. It carries mount flags exactly when an instance named "mounts" exists, and those flags are the instance's own mounts mapping. |
| Msl.LaunchOptionsInOrder | msl.py:37 | When attribute names are distinct, the options are the instance's attributes with only the mounts entry cut out, the rest in attribute order. |
| Msl.LaunchPlanFailureSticky | msl.py:35-42 | Once the names so far raise, the whole launch raises the same exception. |
| Msl.LaunchPlanFails | msl.py:35-46 | launch raises, and so spawns nothing, exactly when building the command for some target name raises. |
| Msl.PlanLaunch | msl.py:33-44 | The loop returns exactly the launch plan, or the first exception. |
| Msl.LaunchIgnoresOwnMounts | msl.py:37-42 | Concrete case: an instance with its own mounts, and no instance named "mounts", is launched with `--cpus 2` and no mount flag. |
| Msl.RenderLaunchExample | msl.py:37 | That launch command line is `multipass launch --name web --cpus 2`. |
| Msl.LaunchFailsBesideInstanceNamedMounts | msl.py:38-39 | Concrete case: beside an instance named "mounts", launching an instance without mounts raises the KeyError. |
| Tables.InvertKeys | msl.py:53 | The inverted mapping's keys are exactly the reported source paths. |
| Tables.InvertDistinctKeys | msl.py:53 | The inverted mapping is a dictionary, with each source path once. |
| Tables.InvertLastWins | msl.py:53 | A source path maps to the guest name of its last occurrence: later entries win. |
| Tables.InvertInjective | msl.py:53 | Inverting a dictionary gives distinct guest names, each one of the original keys. |
| Msl.CurrentMountsInverts | msl.py:51-53 | current_mounts is keyed by exactly the reported source paths, each once. Each path maps to the guest name reported last for it. Distinct guest names stay distinct. |
| Tables.PutLookup | msl.py:53 | After `d[k] = v`, k looks up v and every other key keeps its value. |
| Tables.PutKeys | msl.py:53 | `d[k] = v` keeps an existing key in its place and appends a new key at the end. |
| Tables.WithoutAt | msl.py:37 | Filtering out the key of entry i removes exactly that entry and keeps the others in order. |
| Msl.PairStepsCases | msl.py:68-80 | For one desired pair host→guest there are four cases. (1) Host already at guest: no step. (2) Host mounted at another guest g: exactly `umount vm:g` then `mount host vm:guest`. (3) Host unmounted and existing: one mount. (4) Host unmounted and missing: only the missing-directory diagnostic. |
| Msl.InstanceStepsMembers | msl.py:68-80 | Every step of an instance's plan comes from one of its desired pairs, and every step of a desired pair is in the plan. |
| Msl.InstanceStepsEmpty | msl.py:68-80 | Idempotence: an instance's plan is empty exactly when every desired host path is already mounted at its desired guest name. |
| Msl.InstanceStepsCommandFree | msl.py:68-80 | No command is issued for an instance exactly when each desired pair is either in place or unmounted with its host path missing. |
| Msl.SyncedPairUntouched | msl.py:68-74 | A pair already in place is never unmounted or remounted by any other pair's steps, given distinct desired host paths and distinct live guest names. |
| Msl.PairStepsSpareOthers | msl.py:69-78 | The steps for one host path neither unmount another pair's guest name nor mount another host path. |
| Msl.PlanInstanceMounts | msl.py:68-80 | The inner loop returns exactly the steps for the desired pairs, in mapping order. |
| Msl.MountPlanAbortSticky | msl.py:64-67 | Once a name raises, later names add nothing to the mount outcome. |
| Msl.MountPlanSkipsNotLive | msl.py:64-65 | Names that are not live are skipped silently: the outcome equals the outcome for the live names alone. |
| Msl.MountPlanCommandsLive | msl.py:63-80 | Every command mount issues is a mount or umount on an instance that was named and is live. |
| Msl.MountPlanInSync | msl.py:63-80 | Idempotence: when every named live instance already has its desired mounts, mount issues nothing and raises nothing. |
| Msl.PlanMount | msl.py:63-80 | The nested loops issue exactly the mount outcome: the steps in order, and the exception that stopped them, if any. |
| Msl.LiveTargetsCount | msl.py:97 | The filtered names contain each name as often as it was given if it is live, and never otherwise. |
| Msl.LiveTargetsAppend | msl.py:97 | The filter distributes over concatenation, so it keeps target order. |
| Msl.StopCommand | msl.py:93-98 | With --all the line is exactly `multipass stop --all`. Otherwise it is `multipass stop ` followed by the space-joined names. Those names are the live targets in target order, and each live name appears as often as it was given. |
| Msl.DeleteCommand | msl.py:101-107 | The same for delete: `multipass delete --all`, or `multipass delete ` followed by the live targets in target order, each as often as it was given. |
| Msl.NoLiveTargetStillIssued | msl.py:93-107 | With no live target, stop and delete are still issued as `multipass stop ` and `multipass delete `. |

## Left out

- Spawning processes (`subprocess.Popen`, `check_output` and `wait`) and their fire-and-forget concurrency. The plans are returned instead. The order of a spawned umount and mount at run time is not modelled.
- `read_yaml`, `init`, YAML parsing and dumping, and file I/O.
  - The manifest is given as an already-parsed `instances` mapping.
  - A manifest whose instance entry is not a mapping, such as an empty entry, is not modelled.
- `current_instance`, and the YAML output of `multipass info`.
  - `liveMounts` is a total function, so the `KeyError` raised when `info` has no entry for a live instance is not modelled.
  - `current_mounts` runs before `config_mounts` at msl.py:66, so that `KeyError` would come first.
  - `liveMounts` is one snapshot of the live mounts, taken before any command runs. The source queries `multipass info` again for each name (msl.py:66, 52). So a name given twice is planned against the same mounts both times, while the source may see the effect of its first pass.
- `os.path.exists` is the `hostExists` parameter.
- `parser`, `main`, and the `print(vms)` in `main`.
- The progress lines printed beside each umount and mount (msl.py:71, 73, 77). Each command step stands for its command and its line.
  - Diagnostics printed by launch before it raises are not part of its `Failure` result.
- Python's `str` of YAML values is taken as given:
  - a scalar attribute carries its text;
  - a nested mapping is printed as a dictionary of strings;
  - mount paths and guest names are strings.
- What multipass does with `stop` or `delete` given no names is outside this model. The model shows only that the commands are issued.
- Msl.LiveTargets: its own contract bounds only the length. The contents are stated by LiveTargetsCount and LiveTargetsAppend.

=== FILE: commands.dfy ===
/**
 * The commands the front-end hands to the virtual-machine manager (multipass),
 * the messages it prints instead of acting, the failures that abort a
 * command, and the exact command lines the source builds with f-strings.
 */
module Commands {
  import opened Wrappers
  import opened Tables

  /**
   * An attribute value of an instance in the manifest, as the YAML loader
   * returns it: a scalar (its text is Python's `str` of the value, so
   * `cpus: 1` is "1") or a nested mapping of strings.
   */
  datatype Value = Scalar(text: string) | Mapping(entries: Table<string>)

  datatype Command =
    | Launch(name: string, options: Table<Value>, mountFlags: Option<Table<string>>)
    | Mount(host: string, vm: string, guest: string)
    | Umount(vm: string, guest: string)
    | Stop(names: seq<string>)
    | StopAll
    | Delete(names: seq<string>)
    | DeleteAll

  /** What the source prints when it skips an item. */
  datatype Diagnostic =
    | NotDefinedOrExists(vm: string)   // msl.py:44
    | HostDirMissing(host: string)     // msl.py:80

  /** One item of a plan: a command to spawn, or a printed diagnostic. */
  datatype Step = Run(cmd: Command) | Note(diag: Diagnostic)

  /** Exceptions the source raises while planning; each aborts the command. */
  datatype Error =
    | UnknownInstance(vm: string)     // KeyError on config[vm]
    | NoMountsAttribute(vm: string)   // KeyError on config[vm]['mounts']
    | MountsNotMapping(vm: string)    // AttributeError: the mounts value has no .items()

  /** `sep.join(words)` */
  function Join(sep: string, words: seq<string>): string {
    if words == [] then ""
    else if |words| == 1 then words[0]
    else words[0] + sep + Join(sep, words[1..])
  }

  /** Python's `str` of an attribute value inside an f-string. */
  function ValueText(v: Value): string {
    match v
    case Scalar(text) => text
    case Mapping(entries) =>
      "{" + Join(", ", seq(|entries|, i requires 0 <= i < |entries| =>
                             "'" + entries[i].0 + "': '" + entries[i].1 + "'")) + "}"
  }

  /** `--key value` for every launch option, in option order. */
  function OptionWords(options: Table<Value>): seq<string>
  {
    seq(|options|, i requires 0 <= i < |options| => "--" + options[i].0 + " " + ValueText(options[i].1))
  }

  /** `--mount host:guest` for every configured mount, in mount order. */
  function MountWords(mounts: Table<string>): seq<string>
  {
    seq(|mounts|, i requires 0 <= i < |mounts| => "--mount " + mounts[i].0 + ":" + mounts[i].1)
  }

  /** The shell command line the source spawns for a command. */
  function Render(c: Command): string {
    match c
    case Launch(name, options, mountFlags) =>
      var cmd := "multipass launch --name " + name + " " + Join(" ", OptionWords(options));
      (match mountFlags
       case None => cmd
       case Some(mounts) => cmd + "  " + Join(" ", MountWords(mounts)))
    case Mount(host, vm, guest) => "multipass mount " + host + " " + vm + ":" + guest
    case Umount(vm, guest) => "multipass umount " + vm + ":" + guest
    case Stop(names) => "multipass stop " + Join(" ", names)
    case StopAll => "multipass stop --all"
    case Delete(names) => "multipass delete " + Join(" ", names)
    case DeleteAll => "multipass delete --all"
  }
}

=== FILE: msl.dfy ===
/**
 * The planning half of msl.py, a batch front-end for the multipass
 * virtual-machine manager. Each subcommand decides, from the manifest's
 * `instances` mapping, the names of the live instances and the names the user
 * gave, which multipass commands to spawn; here those decisions are returned
 * as a plan instead of being spawned.
 *
 * What the source learns from the outside world is passed in: `current` is
 * the list of live instance names (`multipass list`), `liveMounts(vm)` is the
 * guest-name to source-path mapping multipass reports for a live instance
 * (`multipass info --all`), and `hostExists(p)` says whether a host path exists.
 */
module Msl {
  import opened Wrappers
  import opened Tables
  import opened Commands

  /** An instance's attributes (cpus, memory, disk, mounts, ...) in manifest order. */
  type Instance = Table<Value>

  /** The manifest's `instances` mapping: instance name to attributes. */
  type Manifest = Table<Instance>

  // ----------------------------------------------------------------------
  // Selector

  /**
   * The instances a subcommand works on: the names the user gave, verbatim
   * (unknown names included), or every manifest instance in manifest order
   * when the user gave none.
   */
  function VirtualInstance(targets: seq<string>, config: Manifest): (vms: seq<string>)
    ensures |targets| > 0 ==> vms == targets
    ensures |targets| == 0 ==> |vms| == |config| && forall i :: 0 <= i < |config| ==> vms[i] == config[i].0
  {
    if |targets| > 0 then targets else Keys(config)
  }

  // ----------------------------------------------------------------------
  // Mount attributes

  /** `.items()` on a mounts attribute: only a mapping has items. */
  function MountItems(vm: string, v: Value): Result<Table<string>, Error> {
    match v
    case Mapping(entries) => Success(entries)
    case Scalar(_) => Failure(MountsNotMapping(vm))
  }

  /**
   * `config_mounts`: the mounts attribute of instance vm, or an empty mapping.
   * As written, the guard asks whether the instances mapping has a key named
   * "mounts" (an instance called "mounts"), not whether instance vm has a
   * mounts attribute; the lookups behind the guard then fail when vm is not
   * in the manifest or has no mounts attribute.
   */
  function ConfigMounts(vm: string, config: Manifest): (r: Result<Value, Error>)
    ensures "mounts" !in Keys(config) ==> r == Success(Mapping([]))
    ensures "mounts" in Keys(config) ==>
              (r.Success? <==> vm in Keys(config) && "mounts" in Keys(Lookup(config, vm).value))
    ensures r == Failure(UnknownInstance(vm)) <==> "mounts" in Keys(config) && vm !in Keys(config)
    ensures "mounts" in Keys(config) && r.Success? ==>
              exists attrs :: (vm, attrs) in config && ("mounts", r.value) in attrs
  {
    if "mounts" in Keys(config) then
      match Lookup(config, vm)
      case None => Failure(UnknownInstance(vm))
      case Some(attrs) =>
        match Lookup(attrs, "mounts")
        case None => Failure(NoMountsAttribute(vm))
        case Some(v) => Success(v)
    else
      Success(Mapping([]))
  }

  /** The host-path to guest-name pairs `mount` walks for instance vm. */
  function DesiredMounts(vm: string, config: Manifest): Result<Table<string>, Error> {
    match ConfigMounts(vm, config)
    case Failure(e) => Failure(e)
    case Success(v) => MountItems(vm, v)
  }

  // ----------------------------------------------------------------------
  // launch

  /** An instance launch acts on: defined in the manifest and not live. */
  predicate Launchable(vm: string, current: seq<string>, config: Manifest) {
    vm !in current && vm in Keys(config)
  }

  /** Whether an instance's attributes hold a mounts mapping. */
  predicate HasMountMapping(attrs: Instance) {
    var v := Lookup(attrs, "mounts");
    v.Some? && v.value.Mapping?
  }

  /**
   * One turn of the launch loop: the launch command for a launchable
   * instance, a diagnostic for any other name. Mount flags are added when the
   * instances mapping has a key "mounts", whatever instance vm has; that is
   * the source's condition, kept as written.
   */
  function LaunchStep(current: seq<string>, config: Manifest, vm: string): (r: Result<Step, Error>)
    ensures !Launchable(vm, current, config) ==> r == Success(Note(NotDefinedOrExists(vm)))
    ensures r.Failure? <==>
              Launchable(vm, current, config) && "mounts" in Keys(config)
              && !HasMountMapping(Lookup(config, vm).value)
  {
    if vm !in current && vm in Keys(config) then
      var attrs := Lookup(config, vm).value;
      var cmd := Launch(vm, Without(attrs, "mounts"), None);
      if "mounts" in Keys(config) then
        match Lookup(attrs, "mounts")
        case None => Failure(NoMountsAttribute(vm))
        case Some(v) =>
          match MountItems(vm, v)
          case Failure(e) => Failure(e)
          case Success(mounts) => Success(Run(cmd.(mountFlags := Some(mounts))))
      else
        Success(Run(cmd))
    else
      Success(Note(NotDefinedOrExists(vm)))
  }

  /**
   * What `launch` plans for a list of names: one step per name, in name
   * order, or the first exception raised while building the command lines
   * (then nothing is spawned).
   */
  function LaunchPlan(current: seq<string>, config: Manifest, targets: seq<string>): (r: Result<seq<Step>, Error>)
    ensures r.Success? ==> |r.value| == |targets|
  {
    if targets == [] then Success([])
    else
      match LaunchPlan(current, config, targets[..|targets| - 1])
      case Failure(e) => Failure(e)
      case Success(steps) =>
        match LaunchStep(current, config, targets[|targets| - 1])
        case Failure(e) => Failure(e)
        case Success(s) => Success(steps + [s])
  }

  /** The plan for a non-empty target list fails when its front's plan or its last step fails. */
  lemma LaunchPlanLast(current: seq<string>, config: Manifest, targets: seq<string>)
    requires targets != []
    ensures LaunchPlan(current, config, targets).Failure? <==>
              LaunchPlan(current, config, targets[..|targets| - 1]).Failure?
              || LaunchStep(current, config, targets[|targets| - 1]).Failure?
    ensures LaunchPlan(current, config, targets[..|targets| - 1]).Failure? ==>
              LaunchPlan(current, config, targets) == LaunchPlan(current, config, targets[..|targets| - 1])
  {
  }

  /** A successful plan is its front's plan followed by the last target's step. */
  lemma LaunchPlanLastSuccess(current: seq<string>, config: Manifest, targets: seq<string>)
    requires targets != [] && LaunchPlan(current, config, targets).Success?
    ensures LaunchPlan(current, config, targets[..|targets| - 1]).Success?
    ensures LaunchStep(current, config, targets[|targets| - 1]).Success?
    ensures LaunchPlan(current, config, targets).value
         == LaunchPlan(current, config, targets[..|targets| - 1]).value + [LaunchStep(current, config, targets[|targets| - 1]).value]
  {
  }

  /** A successful plan holds, at position i, the step for the i-th name. */
  lemma {:induction false} LaunchPlanAt(current: seq<string>, config: Manifest, targets: seq<string>, i: nat)
    requires LaunchPlan(current, config, targets).Success? && i < |targets|
    ensures LaunchStep(current, config, targets[i]) == Success(LaunchPlan(current, config, targets).value[i])
  {
    var n := |targets| - 1;
    LaunchPlanLastSuccess(current, config, targets);
    var front := LaunchPlan(current, config, targets[..n]).value;
    assert |front| == n;
    if i < n {
      assert targets[..n][i] == targets[i];
      LaunchPlanAt(current, config, targets[..n], i);
      assert LaunchPlan(current, config, targets).value[i] == front[i];
    } else {
      assert i == n;
    }
  }

  /**
   * launch issues a command for a name exactly when the name is in the
   * manifest and not live; the command is `launch --name <name>` with every
   * attribute but mounts as an option, in attribute order, and carries mount
   * flags exactly when the instances mapping has a key "mounts", taken from
   * the instance's own mounts attribute. Every other name gets the
   * "not defined or exists already" diagnostic.
   */
  lemma LaunchCommandFor(current: seq<string>, config: Manifest, targets: seq<string>, steps: seq<Step>, i: nat)
    requires LaunchPlan(current, config, targets) == Success(steps) && i < |targets|
    ensures steps[i].Run? <==> targets[i] !in current && targets[i] in Keys(config)
    ensures steps[i].Note? ==> steps[i] == Note(NotDefinedOrExists(targets[i]))
    ensures steps[i].Run? ==>
              && steps[i].cmd.Launch?
              && steps[i].cmd.name == targets[i]
              && steps[i].cmd.options == Without(Lookup(config, targets[i]).value, "mounts")
              && (steps[i].cmd.mountFlags.Some? <==> "mounts" in Keys(config))
    ensures steps[i].Run? && "mounts" in Keys(config) ==>
              Lookup(Lookup(config, targets[i]).value, "mounts") == Some(Mapping(steps[i].cmd.mountFlags.value))
  {
    LaunchPlanAt(current, config, targets, i);
  }

  /**
   * In a manifest whose instances have distinct attribute names, the options
   * of a launch command are the instance's attributes with the mounts entry
   * cut out, the rest in their order.
   */
  lemma LaunchOptionsInOrder(current: seq<string>, config: Manifest, targets: seq<string>, steps: seq<Step>, i: nat, j: nat)
    requires LaunchPlan(current, config, targets) == Success(steps) && i < |targets|
    requires targets[i] !in current && targets[i] in Keys(config)
    requires DistinctKeys(Lookup(config, targets[i]).value)
    requires j < |Lookup(config, targets[i]).value| && Lookup(config, targets[i]).value[j].0 == "mounts"
    ensures steps[i].Run? && steps[i].cmd.Launch?
    ensures steps[i].cmd.options == Lookup(config, targets[i]).value[..j] + Lookup(config, targets[i]).value[j + 1..]
  {
    LaunchCommandFor(current, config, targets, steps, i);
    WithoutAt(Lookup(config, targets[i]).value, j);
  }

  /** Once a prefix of the names raises, the whole launch raises the same. */
  lemma {:induction false} LaunchPlanFailureSticky(current: seq<string>, config: Manifest, targets: seq<string>, k: nat)
    requires k <= |targets| && LaunchPlan(current, config, targets[..k]).Failure?
    ensures LaunchPlan(current, config, targets) == LaunchPlan(current, config, targets[..k])
    decreases |targets| - k
  {
    if k < |targets| {
      PrefixStep(targets, k);
      LaunchPlanLast(current, config, targets[..k + 1]);
      LaunchPlanFailureSticky(current, config, targets, k + 1);
    } else {
      assert targets[..k] == targets;
    }
  }

  /**
   * launch raises exactly when some name is launchable while the instances
   * mapping has a key "mounts" and that name's instance has no mounts mapping.
   */
  lemma LaunchPlanFails(current: seq<string>, config: Manifest, targets: seq<string>)
    ensures LaunchPlan(current, config, targets).Failure? <==>
              exists i :: 0 <= i < |targets| && LaunchStep(current, config, targets[i]).Failure?
  {
    if LaunchPlan(current, config, targets).Failure? {
      LaunchPlanFailureWitness(current, config, targets);
    } else {
      forall i | 0 <= i < |targets| ensures LaunchStep(current, config, targets[i]).Success? {
        LaunchPlanAt(current, config, targets, i);
      }
    }
  }

  /** A failed plan has a target whose step fails. */
  lemma {:induction false} LaunchPlanFailureWitness(current: seq<string>, config: Manifest, targets: seq<string>)
    requires LaunchPlan(current, config, targets).Failure?
    ensures exists i :: 0 <= i < |targets| && LaunchStep(current, config, targets[i]).Failure?
  {
    var n := |targets| - 1;
    var prefix := targets[..n];
    LaunchPlanLast(current, config, targets);
    if LaunchPlan(current, config, prefix).Failure? {
      LaunchPlanFailureWitness(current, config, prefix);
      var i :| 0 <= i < n && LaunchStep(current, config, prefix[i]).Failure?;
      assert prefix[i] == targets[i];
    } else {
      assert LaunchStep(current, config, targets[n]).Failure?;
    }
  }

  /** `launch`: the loop of msl.py, collecting the plan step by step. */
  method PlanLaunch(current: seq<string>, config: Manifest, targets: seq<string>) returns (r: Result<seq<Step>, Error>)
    ensures r == LaunchPlan(current, config, targets)
  {
    var steps: seq<Step> := [];
    for i := 0 to |targets|
      invariant LaunchPlan(current, config, targets[..i]) == Success(steps)
    {
      assert targets[..i + 1][..i] == targets[..i];
      var vm := targets[i];
      var step := LaunchStep(current, config, vm);
      if step.Failure? {
        LaunchPlanFailureSticky(current, config, targets, i + 1);
        return Failure(step.error);
      }
      steps := steps + [step.value];
    }
    assert targets[..|targets|] == targets;
    return Success(steps);
  }

  // ----------------------------------------------------------------------
  // mount

  /**
   * `current_mounts`: the live mounts of an instance keyed by host path,
   * inverted from the guest-name to source-path mapping multipass reports.
   */
  function CurrentMounts(live: Table<string>): Table<string> {
    Invert(live)
  }

  /**
   * The inverted mapping has exactly the reported source paths as keys, each
   * once; each maps to the guest name reported last for it; and when the
   * reported guest names are distinct, no two host paths share a guest name.
   */
  lemma CurrentMountsInverts(live: Table<string>)
    ensures forall h :: h in Keys(CurrentMounts(live)) <==> h in Values(live)
    ensures DistinctKeys(CurrentMounts(live))
    ensures forall i :: 0 <= i < |live| && (forall j :: i < j < |live| ==> live[j].1 != live[i].1) ==>
              Lookup(CurrentMounts(live), live[i].1) == Some(live[i].0)
    ensures DistinctKeys(live) ==> Distinct(Values(CurrentMounts(live)))
  {
    forall h ensures h in Keys(CurrentMounts(live)) <==> h in Values(live) {
      InvertKeys(live, h);
    }
    InvertDistinctKeys(live);
    InvertFacts(live);
  }

  /** What the inner loop of mount does for one desired pair host -> guest of instance vm. */
  function PairSteps(vm: string, mounted: Table<string>, host: string, guest: string, hostExists: string -> bool): seq<Step> {
    match Lookup(mounted, host)
    case Some(g) =>
      if g != guest then [Run(Umount(vm, g)), Run(Mount(host, vm, guest))] else []
    case None =>
      if hostExists(host) then [Run(Mount(host, vm, guest))] else [Note(HostDirMissing(host))]
  }

  /**
   * For one desired pair host -> guest, mount does nothing when host is
   * mounted at guest already; unmounts the old guest name and then mounts
   * when host is mounted elsewhere; mounts when host is not mounted and
   * exists; and otherwise only reports the missing host directory. Whenever
   * it issues commands, the last one mounts host at guest.
   */
  lemma PairStepsCases(vm: string, mounted: Table<string>, host: string, guest: string, hostExists: string -> bool)
    ensures var r := PairSteps(vm, mounted, host, guest, hostExists);
      && (Lookup(mounted, host) == Some(guest) ==> r == [])
      && (Lookup(mounted, host).Some? && Lookup(mounted, host) != Some(guest) ==>
            r == [Run(Umount(vm, Lookup(mounted, host).value)), Run(Mount(host, vm, guest))])
      && (Lookup(mounted, host) == None && hostExists(host) ==> r == [Run(Mount(host, vm, guest))])
      && (Lookup(mounted, host) == None && !hostExists(host) ==> r == [Note(HostDirMissing(host))])
      && (r != [] && r[|r| - 1].Run? ==> r[|r| - 1] == Run(Mount(host, vm, guest)))
      && (forall s :: s in r && s.Run? ==> s.cmd.vm == vm && (s.cmd.Mount? || s.cmd.Umount?))
  {
  }

  /** The inner loop of mount over the desired pairs of one instance, in order. */
  function InstanceSteps(vm: string, mounted: Table<string>, desired: Table<string>, hostExists: string -> bool): seq<Step> {
    if desired == [] then []
    else
      var n := |desired| - 1;
      InstanceSteps(vm, mounted, desired[..n], hostExists)
        + PairSteps(vm, mounted, desired[n].0, desired[n].1, hostExists)
  }

  /** Extending the desired pairs by one extends the plan by that pair's steps. */
  lemma InstanceStepsPrefix(vm: string, mounted: Table<string>, desired: Table<string>, hostExists: string -> bool, j: nat)
    requires j < |desired|
    ensures InstanceSteps(vm, mounted, desired[..j + 1], hostExists)
         == InstanceSteps(vm, mounted, desired[..j], hostExists) + PairSteps(vm, mounted, desired[j].0, desired[j].1, hostExists)
  {
    PrefixStep(desired, j);
  }

  /** The plan for the desired pairs starts with the plan for a prefix of them. */
  lemma {:induction false} InstanceStepsGrow(vm: string, mounted: Table<string>, desired: Table<string>,
                                             hostExists: string -> bool, k: nat, s: Step)
    requires k <= |desired| && s in InstanceSteps(vm, mounted, desired[..k], hostExists)
    ensures s in InstanceSteps(vm, mounted, desired, hostExists)
    decreases |desired| - k
  {
    if k < |desired| {
      InstanceStepsPrefix(vm, mounted, desired, hostExists, k);
      InstanceStepsGrow(vm, mounted, desired, hostExists, k + 1, s);
    } else {
      assert desired[..k] == desired;
    }
  }

  /** A step for one of the desired pairs is a step of the instance's plan. */
  lemma InstanceStepsContains(vm: string, mounted: Table<string>, desired: Table<string>,
                              hostExists: string -> bool, i: nat, s: Step)
    requires i < |desired| && s in PairSteps(vm, mounted, desired[i].0, desired[i].1, hostExists)
    ensures s in InstanceSteps(vm, mounted, desired, hostExists)
  {
    InstanceStepsPrefix(vm, mounted, desired, hostExists, i);
    InstanceStepsGrow(vm, mounted, desired, hostExists, i + 1, s);
  }

  /** Every step of the instance's plan is a step for one of its desired pairs. */
  lemma {:induction false} InstanceStepsOrigin(vm: string, mounted: Table<string>, desired: Table<string>,
                                               hostExists: string -> bool, s: Step)
    requires s in InstanceSteps(vm, mounted, desired, hostExists)
    ensures exists i :: 0 <= i < |desired| && s in PairSteps(vm, mounted, desired[i].0, desired[i].1, hostExists)
  {
    var n := |desired| - 1;
    if s in InstanceSteps(vm, mounted, desired[..n], hostExists) {
      InstanceStepsOrigin(vm, mounted, desired[..n], hostExists, s);
      var i :| 0 <= i < n && s in PairSteps(vm, mounted, desired[..n][i].0, desired[..n][i].1, hostExists);
      assert desired[..n][i] == desired[i];
    } else {
      assert s in PairSteps(vm, mounted, desired[n].0, desired[n].1, hostExists);
    }
  }

  /** A step of an instance's plan is a step for one of its desired pairs, and back. */
  lemma InstanceStepsMembers(vm: string, mounted: Table<string>, desired: Table<string>, hostExists: string -> bool, s: Step)
    ensures s in InstanceSteps(vm, mounted, desired, hostExists) <==>
              exists i :: 0 <= i < |desired| && s in PairSteps(vm, mounted, desired[i].0, desired[i].1, hostExists)
  {
    if s in InstanceSteps(vm, mounted, desired, hostExists) {
      InstanceStepsOrigin(vm, mounted, desired, hostExists, s);
    }
    if exists i :: 0 <= i < |desired| && s in PairSteps(vm, mounted, desired[i].0, desired[i].1, hostExists) {
      var i :| 0 <= i < |desired| && s in PairSteps(vm, mounted, desired[i].0, desired[i].1, hostExists);
      InstanceStepsContains(vm, mounted, desired, hostExists, i, s);
    }
  }

  /**
   * Idempotence: mount plans nothing at all for an instance exactly when
   * every desired host path is already mounted at its desired guest name.
   */
  lemma InstanceStepsEmpty(vm: string, mounted: Table<string>, desired: Table<string>, hostExists: string -> bool)
    ensures InstanceSteps(vm, mounted, desired, hostExists) == [] <==>
              forall i :: 0 <= i < |desired| ==> Lookup(mounted, desired[i].0) == Some(desired[i].1)
  {
    var steps := InstanceSteps(vm, mounted, desired, hostExists);
    if steps != [] {
      InstanceStepsMembers(vm, mounted, desired, hostExists, steps[0]);
    } else {
      forall i | 0 <= i < |desired| ensures Lookup(mounted, desired[i].0) == Some(desired[i].1) {
        var p := PairSteps(vm, mounted, desired[i].0, desired[i].1, hostExists);
        if p != [] { InstanceStepsMembers(vm, mounted, desired, hostExists, p[0]); }
      }
    }
  }

  /**
   * mount issues no command for an instance (diagnostics aside) exactly when
   * every desired host path is mounted at its guest name already or is
   * unmounted and missing on the host.
   */
  lemma InstanceStepsCommandFree(vm: string, mounted: Table<string>, desired: Table<string>, hostExists: string -> bool)
    ensures (forall s :: s in InstanceSteps(vm, mounted, desired, hostExists) ==> s.Note?) <==>
              forall i :: 0 <= i < |desired| ==>
                Lookup(mounted, desired[i].0) == Some(desired[i].1)
                || (Lookup(mounted, desired[i].0) == None && !hostExists(desired[i].0))
  {
    var steps := InstanceSteps(vm, mounted, desired, hostExists);
    if forall s :: s in steps ==> s.Note? {
      forall i | 0 <= i < |desired|
        ensures Lookup(mounted, desired[i].0) == Some(desired[i].1)
                || (Lookup(mounted, desired[i].0) == None && !hostExists(desired[i].0))
      {
        var p := PairSteps(vm, mounted, desired[i].0, desired[i].1, hostExists);
        if p != [] { InstanceStepsMembers(vm, mounted, desired, hostExists, p[|p| - 1]); }
      }
    } else {
      var s :| s in steps && !s.Note?;
      InstanceStepsMembers(vm, mounted, desired, hostExists, s);
    }
  }

  /**
   * A desired pair that is mounted correctly already is left alone: with
   * distinct desired host paths and at most one host path per guest name in
   * the live mounts, no command of the instance's plan unmounts its guest
   * name or mounts its host path.
   */
  lemma SyncedPairUntouched(vm: string, mounted: Table<string>, desired: Table<string>, hostExists: string -> bool, i: nat)
    requires DistinctKeys(desired) && Distinct(Values(mounted))
    requires i < |desired| && Lookup(mounted, desired[i].0) == Some(desired[i].1)
    ensures forall s :: s in InstanceSteps(vm, mounted, desired, hostExists) ==>
              s != Run(Umount(vm, desired[i].1)) && !(s.Run? && s.cmd.Mount? && s.cmd.host == desired[i].0)
  {
    forall s | s in InstanceSteps(vm, mounted, desired, hostExists)
      ensures s != Run(Umount(vm, desired[i].1)) && !(s.Run? && s.cmd.Mount? && s.cmd.host == desired[i].0)
    {
      InstanceStepsMembers(vm, mounted, desired, hostExists, s);
      var j :| 0 <= j < |desired| && s in PairSteps(vm, mounted, desired[j].0, desired[j].1, hostExists);
      if j != i {
        assert Keys(desired)[i] != Keys(desired)[j];
        if Lookup(mounted, desired[j].0) == Some(desired[i].1) {
          LookupInjective(mounted, desired[j].0, desired[i].0);
        }
        PairStepsSpareOthers(vm, mounted, desired[j].0, desired[j].1, hostExists, desired[i].0, desired[i].1);
      }
    }
  }

  /**
   * The steps for one host path never unmount another guest name than the
   * one the host path is mounted at, and never mount another host path.
   */
  lemma PairStepsSpareOthers(vm: string, mounted: Table<string>, host: string, guest: string, hostExists: string -> bool,
                             other: string, otherGuest: string)
    requires host != other && Lookup(mounted, host) != Some(otherGuest)
    ensures forall s :: s in PairSteps(vm, mounted, host, guest, hostExists) ==>
              s != Run(Umount(vm, otherGuest)) && !(s.Run? && s.cmd.Mount? && s.cmd.host == other)
  {
    var steps := PairSteps(vm, mounted, host, guest, hostExists);
    match Lookup(mounted, host)
    case None =>
      assert forall s :: s in steps ==> s == Run(Mount(host, vm, guest)) || s == Note(HostDirMissing(host));
    case Some(g) =>
      assert forall s :: s in steps ==> s == Run(Umount(vm, g)) || s == Run(Mount(host, vm, guest));
  }

  /** What a mount run did: the steps issued, and the exception that stopped it, if any. */
  datatype Outcome = Outcome(steps: seq<Step>, abort: Option<Error>)

  /**
   * What `mount` does for a list of names, in name order: names that are not
   * live are skipped without a word; for a live one the desired pairs are
   * compared with its live mounts. An exception while looking up a live
   * instance's mounts stops the run after the steps issued before it.
   */
  function MountPlan(targets: seq<string>, config: Manifest, current: seq<string>,
                     liveMounts: string -> Table<string>, hostExists: string -> bool): Outcome
  {
    if targets == [] then Outcome([], None)
    else
      var prev := MountPlan(targets[..|targets| - 1], config, current, liveMounts, hostExists);
      var vm := targets[|targets| - 1];
      if prev.abort.Some? || vm !in current then prev
      else
        match DesiredMounts(vm, config)
        case Failure(e) => Outcome(prev.steps, Some(e))
        case Success(desired) =>
          Outcome(prev.steps + InstanceSteps(vm, CurrentMounts(liveMounts(vm)), desired, hostExists), None)
  }

  /** Once a prefix of the targets aborted, the next target adds nothing. */
  lemma MountPlanAbortStep(targets: seq<string>, config: Manifest, current: seq<string>,
                           liveMounts: string -> Table<string>, hostExists: string -> bool)
    requires targets != []
    requires MountPlan(targets[..|targets| - 1], config, current, liveMounts, hostExists).abort.Some?
    ensures MountPlan(targets, config, current, liveMounts, hostExists)
         == MountPlan(targets[..|targets| - 1], config, current, liveMounts, hostExists)
  {
  }

  /** Once a prefix of the names raises, the rest of the names are not looked at. */
  lemma {:induction false} MountPlanAbortSticky(targets: seq<string>, config: Manifest, current: seq<string>,
                                                liveMounts: string -> Table<string>, hostExists: string -> bool, k: nat)
    requires k <= |targets| && MountPlan(targets[..k], config, current, liveMounts, hostExists).abort.Some?
    ensures MountPlan(targets, config, current, liveMounts, hostExists) == MountPlan(targets[..k], config, current, liveMounts, hostExists)
    decreases |targets| - k
  {
    if k < |targets| {
      PrefixStep(targets, k);
      MountPlanAbortStep(targets[..k + 1], config, current, liveMounts, hostExists);
      MountPlanAbortSticky(targets, config, current, liveMounts, hostExists, k + 1);
    } else {
      assert targets[..k] == targets;
    }
  }

  /** Names that are not live change nothing: mount plans as if given only the live ones. */
  lemma {:induction false} MountPlanSkipsNotLive(targets: seq<string>, config: Manifest, current: seq<string>,
                                                 liveMounts: string -> Table<string>, hostExists: string -> bool)
    ensures MountPlan(targets, config, current, liveMounts, hostExists)
            == MountPlan(LiveTargets(targets, current), config, current, liveMounts, hostExists)
  {
    if targets != [] {
      var n := |targets| - 1;
      var vm := targets[n];
      MountPlanSkipsNotLive(targets[..n], config, current, liveMounts, hostExists);
      SplitLast(targets);
      LiveTargetsAppend(targets[..n], [vm], current);
      var live := LiveTargets(targets[..n], current);
      if vm in current {
        assert LiveTargets(targets, current) == live + [vm];
        assert (live + [vm])[..|live|] == live;
      } else {
        assert LiveTargets(targets, current) == live;
      }
    }
  }

  /** Every command mount issues unmounts or mounts on a named, live instance. */
  lemma {:induction false} MountPlanCommandsLive(targets: seq<string>, config: Manifest, current: seq<string>,
                                                 liveMounts: string -> Table<string>, hostExists: string -> bool)
    ensures forall s :: s in MountPlan(targets, config, current, liveMounts, hostExists).steps && s.Run? ==>
              (s.cmd.Mount? || s.cmd.Umount?) && s.cmd.vm in targets && s.cmd.vm in current
  {
    if targets != [] {
      var n := |targets| - 1;
      var vm := targets[n];
      var prev := MountPlan(targets[..n], config, current, liveMounts, hostExists);
      MountPlanCommandsLive(targets[..n], config, current, liveMounts, hostExists);
      forall s | s in prev.steps && s.Run? ensures s.cmd.vm in targets {
        assert s.cmd.vm in targets[..n];
      }
      if prev.abort.None? && vm in current && DesiredMounts(vm, config).Success? {
        var desired := DesiredMounts(vm, config).value;
        var mounted := CurrentMounts(liveMounts(vm));
        forall s | s in InstanceSteps(vm, mounted, desired, hostExists) && s.Run?
          ensures (s.cmd.Mount? || s.cmd.Umount?) && s.cmd.vm == vm
        {
          InstanceStepsMembers(vm, mounted, desired, hostExists, s);
          var i :| 0 <= i < |desired| && s in PairSteps(vm, mounted, desired[i].0, desired[i].1, hostExists);
          PairStepsCases(vm, mounted, desired[i].0, desired[i].1, hostExists);
        }
      }
    }
  }

  /** A live instance whose desired mounts are all in place already. */
  predicate InSync(vm: string, config: Manifest, live: Table<string>) {
    match DesiredMounts(vm, config)
    case Failure(_) => false
    case Success(desired) =>
      forall i :: 0 <= i < |desired| ==> Lookup(CurrentMounts(live), desired[i].0) == Some(desired[i].1)
  }

  /**
   * Idempotence of mount: when every named live instance already has its
   * desired mounts in place, mount issues nothing and prints nothing.
   */
  lemma {:induction false} MountPlanInSync(targets: seq<string>, config: Manifest, current: seq<string>,
                                           liveMounts: string -> Table<string>, hostExists: string -> bool)
    requires forall vm :: vm in targets && vm in current ==> InSync(vm, config, liveMounts(vm))
    ensures MountPlan(targets, config, current, liveMounts, hostExists) == Outcome([], None)
  {
    if targets != [] {
      var n := |targets| - 1;
      var vm := targets[n];
      MountPlanInSync(targets[..n], config, current, liveMounts, hostExists);
      if vm in current {
        assert InSync(vm, config, liveMounts(vm));
        InstanceStepsEmpty(vm, CurrentMounts(liveMounts(vm)), DesiredMounts(vm, config).value, hostExists);
      }
    }
  }

  /** The inner loop of `mount`: the steps for the desired pairs of one live instance. */
  method PlanInstanceMounts(vm: string, mounted: Table<string>, desired: Table<string>, hostExists: string -> bool)
    returns (steps: seq<Step>)
    ensures steps == InstanceSteps(vm, mounted, desired, hostExists)
  {
    steps := [];
    for j := 0 to |desired|
      invariant steps == InstanceSteps(vm, mounted, desired[..j], hostExists)
    {
      InstanceStepsPrefix(vm, mounted, desired, hostExists, j);
      var host, guest := desired[j].0, desired[j].1;
      match Lookup(mounted, host)
      case Some(g) =>
        if g != guest {
          steps := steps + [Run(Umount(vm, g)), Run(Mount(host, vm, guest))];
        }
      case None =>
        if hostExists(host) {
          steps := steps + [Run(Mount(host, vm, guest))];
        } else {
          steps := steps + [Note(HostDirMissing(host))];
        }
    }
    assert desired[..|desired|] == desired;
  }

  /** `mount`: the outer loop of msl.py over the names, collecting the steps as they are issued. */
  method PlanMount(targets: seq<string>, config: Manifest, current: seq<string>,
                   liveMounts: string -> Table<string>, hostExists: string -> bool) returns (r: Outcome)
    ensures r == MountPlan(targets, config, current, liveMounts, hostExists)
  {
    var steps: seq<Step> := [];
    for i := 0 to |targets|
      invariant MountPlan(targets[..i], config, current, liveMounts, hostExists) == Outcome(steps, None)
    {
      PrefixStep(targets, i);
      var vm := targets[i];
      if vm in current {
        var mounted := CurrentMounts(liveMounts(vm));
        var mounts := DesiredMounts(vm, config);
        if mounts.Failure? {
          MountPlanAbortSticky(targets, config, current, liveMounts, hostExists, i + 1);
          return Outcome(steps, Some(mounts.error));
        }
        var issued := PlanInstanceMounts(vm, mounted, mounts.value, hostExists);
        steps := steps + issued;
      }
    }
    assert targets[..|targets|] == targets;
    return Outcome(steps, None);
  }

  // ----------------------------------------------------------------------
  // stop and delete

  /** The named instances that are live, in the order named, repeats kept. */
  function LiveTargets(targets: seq<string>, current: seq<string>): (live: seq<string>)
    ensures |live| <= |targets|
  {
    if targets == [] then []
    else if targets[0] in current then [targets[0]] + LiveTargets(targets[1..], current)
    else LiveTargets(targets[1..], current)
  }

  /** Each name occurs among the live targets as often as it was named if it is live, else never. */
  lemma {:induction false} LiveTargetsCount(targets: seq<string>, current: seq<string>)
    ensures forall x :: multiset(LiveTargets(targets, current))[x] == if x in current then multiset(targets)[x] else 0
  {
    if targets != [] {
      LiveTargetsCount(targets[1..], current);
      assert targets == [targets[0]] + targets[1..];
    }
  }

  /** Filtering keeps the order of the names: it distributes over concatenation. */
  lemma {:induction false} LiveTargetsAppend(a: seq<string>, b: seq<string>, current: seq<string>)
    ensures LiveTargets(a + b, current) == LiveTargets(a, current) + LiveTargets(b, current)
  {
    if a != [] {
      assert (a + b)[1..] == a[1..] + b;
      LiveTargetsAppend(a[1..], b, current);
    } else {
      assert a + b == b;
    }
  }

  /**
   * `stop`: with --all, `multipass stop --all` whatever names were given;
   * otherwise one stop command naming exactly the live ones among the names.
   */
  function StopCommand(targets: seq<string>, current: seq<string>, stopAll: bool): (c: Command)
    ensures stopAll ==> Render(c) == "multipass stop --all"
    ensures !stopAll ==> c.Stop? && Render(c) == "multipass stop " + Join(" ", c.names)
    ensures !stopAll ==> c.names == LiveTargets(targets, current)
    ensures !stopAll ==> forall x :: multiset(c.names)[x] == if x in current then multiset(targets)[x] else 0
  {
    LiveTargetsCount(targets, current);
    if stopAll then StopAll else Stop(LiveTargets(targets, current))
  }

  /**
   * `delete`: with --all, `multipass delete --all` whatever names were given;
   * otherwise one delete command naming exactly the live ones among the names.
   */
  function DeleteCommand(targets: seq<string>, current: seq<string>, deleteAll: bool): (c: Command)
    ensures deleteAll ==> Render(c) == "multipass delete --all"
    ensures !deleteAll ==> c.Delete? && Render(c) == "multipass delete " + Join(" ", c.names)
    ensures !deleteAll ==> c.names == LiveTargets(targets, current)
    ensures !deleteAll ==> forall x :: multiset(c.names)[x] == if x in current then multiset(targets)[x] else 0
  {
    LiveTargetsCount(targets, current);
    if deleteAll then DeleteAll else Delete(LiveTargets(targets, current))
  }

  /**
   * When none of the names is live, stop and delete are still issued, with
   * no instance name after the subcommand.
   */
  lemma NoLiveTargetStillIssued(targets: seq<string>, current: seq<string>)
    requires forall x :: x in targets ==> x !in current
    ensures Render(StopCommand(targets, current, false)) == "multipass stop "
    ensures Render(DeleteCommand(targets, current, false)) == "multipass delete "
  {
  }

  // ----------------------------------------------------------------------
  // The "mounts" key quirk, on concrete manifests

  /** An instance's own mounts are dropped from its launch command when no instance is named "mounts". */
  lemma LaunchIgnoresOwnMounts()
    ensures LaunchPlan([], [("web", [("cpus", Scalar("2")), ("mounts", Mapping([("/src", "src")]))])], ["web"])
            == Success([Run(Launch("web", [("cpus", Scalar("2"))], None))])
  {
    var attrs: Instance := [("cpus", Scalar("2")), ("mounts", Mapping([("/src", "src")]))];
    var config: Manifest := [("web", attrs)];
    assert Lookup(config, "web") == Some(attrs);
    assert Without(attrs, "mounts") == [("cpus", Scalar("2"))] by {
      assert attrs[1..] == [("mounts", Mapping([("/src", "src")]))];
      assert Without(attrs[1..], "mounts") == [];
    }
    assert "mounts" !in Keys(config);
    assert LaunchStep([], config, "web") == Success(Run(Launch("web", [("cpus", Scalar("2"))], None)));
    assert LaunchPlan([], config, []) == Success([]);
    assert LaunchPlan([], config, ["web"]) == Success([] + [Run(Launch("web", [("cpus", Scalar("2"))], None))]);
    assert [] + [Run(Launch("web", [("cpus", Scalar("2"))], None))] == [Run(Launch("web", [("cpus", Scalar("2"))], None))];
  }

  /** The command line for that launch: `launch --name web --cpus 2`, and no mount flag. */
  lemma RenderLaunchExample()
    ensures Render(Launch("web", [("cpus", Scalar("2"))], None)) == "multipass launch --name web --cpus 2"
  {
  }

  /** Beside an instance named "mounts", launching an instance without mounts raises. */
  lemma LaunchFailsBesideInstanceNamedMounts()
    ensures LaunchPlan([], [("mounts", [("cpus", Scalar("1"))]), ("web", [("cpus", Scalar("2"))])], ["web"])
            == Failure(NoMountsAttribute("web"))
  {
  }
}

=== FILE: tables.dfy ===
/**
 * Python dictionaries, whose iteration order is insertion order, modelled as
 * their entries in that order. A dictionary's keys are distinct; a table that
 * models one satisfies DistinctKeys.
 */
module Tables {
  import opened Wrappers

  type Table<V> = seq<(string, V)>

  /** A non-empty sequence is its front followed by its last element. */
  lemma SplitLast<T>(s: seq<T>)
    requires s != []
    ensures s == s[..|s| - 1] + [s[|s| - 1]]
  {
  }

  /** Concatenation is associative. */
  lemma AppendAssoc<T>(a: seq<T>, b: seq<T>, c: seq<T>)
    ensures (a + b) + c == a + (b + c)
  {
  }

  /** The prefix of length i + 1 is the prefix of length i followed by element i. */
  lemma PrefixStep<T>(s: seq<T>, i: nat)
    requires i < |s|
    ensures s[..i + 1][..i] == s[..i] && s[..i + 1][i] == s[i]
    ensures s[..i + 1] == s[..i] + [s[i]]
  {
  }

  /** The keys of a table, in table order (`list(d.keys())`). */
  function Keys<V>(t: Table<V>): (ks: seq<string>)
    ensures |ks| == |t|
    ensures forall i :: 0 <= i < |t| ==> ks[i] == t[i].0
  {
    if t == [] then [] else [t[0].0] + Keys(t[1..])
  }

  /** The values of a table, in table order. */
  function Values<V>(t: Table<V>): seq<V>
  {
    seq(|t|, i requires 0 <= i < |t| => t[i].1)
  }

  ghost predicate Distinct<T>(s: seq<T>) {
    forall i, j :: 0 <= i < j < |s| ==> s[i] != s[j]
  }

  ghost predicate DistinctKeys<V>(t: Table<V>) {
    Distinct(Keys(t))
  }

  /** `d[k]` when `k in d`, and None otherwise. */
  function Lookup<V>(t: Table<V>, k: string): (r: Option<V>)
    ensures r.Some? <==> k in Keys(t)
    ensures r.Some? ==> (k, r.value) in t
  {
    if t == [] then None
    else if t[0].0 == k then Some(t[0].1)
    else Lookup(t[1..], k)
  }

  /** In a table whose values are distinct, two keys that look up the same value are equal. */
  lemma {:induction false} LookupInjective<V>(t: Table<V>, k1: string, k2: string)
    requires Distinct(Values(t))
    requires Lookup(t, k1).Some? && Lookup(t, k1) == Lookup(t, k2)
    ensures k1 == k2
  {
    var v := Lookup(t, k1).value;
    var j1 :| 0 <= j1 < |t| && t[j1] == (k1, v);
    var j2 :| 0 <= j2 < |t| && t[j2] == (k2, v);
    assert Values(t)[j1] == Values(t)[j2];
  }

  /**
   * `d[k] = v`: an existing key keeps its position and takes the new value,
   * a new key is appended at the end.
   */
  function Put<V>(t: Table<V>, k: string, v: V): Table<V> {
    if t == [] then [(k, v)]
    else if t[0].0 == k then [(k, v)] + t[1..]
    else [t[0]] + Put(t[1..], k, v)
  }

  /** Put keeps an existing key in its position and appends a new one. */
  lemma {:induction false} PutKeys<V>(t: Table<V>, k: string, v: V)
    ensures Keys(Put(t, k, v)) == if k in Keys(t) then Keys(t) else Keys(t) + [k]
  {
    if t != [] {
      var r := Put(t, k, v);
      if t[0].0 == k {
        assert r[1..] == t[1..];
      } else {
        var rest := Put(t[1..], k, v);
        assert r[1..] == rest;
        PutKeys(t[1..], k, v);
        assert Keys(r) == [t[0].0] + Keys(rest);
        if k !in Keys(t[1..]) {
          AppendAssoc([t[0].0], Keys(t[1..]), [k]);
        }
      }
    }
  }

  /** After Put, k looks up v and every other key looks up what it did before. */
  lemma {:induction false} PutLookup<V>(t: Table<V>, k: string, v: V, k': string)
    ensures Lookup(Put(t, k, v), k') == if k' == k then Some(v) else Lookup(t, k')
  {
    if t != [] {
      var r := Put(t, k, v);
      if t[0].0 == k {
        assert r[1..] == t[1..];
      } else {
        assert r[1..] == Put(t[1..], k, v);
        PutLookup(t[1..], k, v, k');
      }
    }
  }

  /** Put adds no entry other than (k, v). */
  lemma {:induction false} PutEntries<V>(t: Table<V>, k: string, v: V, e: (string, V))
    requires e in Put(t, k, v)
    ensures e in t || e == (k, v)
  {
    if t != [] {
      var r := Put(t, k, v);
      if e != r[0] {
        assert e in r[1..];
        if t[0].0 == k {
          assert r[1..] == t[1..];
        } else {
          assert r[1..] == Put(t[1..], k, v);
          PutEntries(t[1..], k, v, e);
        }
      }
    }
  }

  /** Put keeps the keys of a dictionary distinct. */
  lemma PutDistinctKeys<V>(t: Table<V>, k: string, v: V)
    requires DistinctKeys(t)
    ensures DistinctKeys(Put(t, k, v))
  {
    PutKeys(t, k, v);
    if k !in Keys(t) {
      var ks := Keys(t) + [k];
      forall i, j | 0 <= i < j < |ks| ensures ks[i] != ks[j] {
        assert ks[i] == Keys(t)[i];
      }
    }
  }

  /** Replacing the first value by one not yet present keeps the values distinct. */
  lemma ReplaceHeadDistinctValues<V>(t: Table<V>, v: V)
    requires t != [] && Distinct(Values(t)) && v !in Values(t)
    ensures Distinct(Values([(t[0].0, v)] + t[1..]))
  {
    var vs := Values(t);
    var r := [(t[0].0, v)] + t[1..];
    forall a, b | 0 <= a < b < |r| ensures Values(r)[a] != Values(r)[b] {
      assert vs[b] == Values(r)[b];
      if a > 0 { assert vs[a] == Values(r)[a]; }
    }
  }

  /** Put of a value not yet present keeps the values of a table distinct. */
  lemma {:induction false} PutDistinctValues<V>(t: Table<V>, k: string, v: V)
    requires Distinct(Values(t)) && v !in Values(t)
    ensures Distinct(Values(Put(t, k, v)))
  {
    if t != [] {
      if t[0].0 == k {
        ReplaceHeadDistinctValues(t, v);
      } else {
        TailDistinctValues(t, v);
        PutDistinctValues(t[1..], k, v);
        var rest := Put(t[1..], k, v);
        PutAvoidsValue(t[1..], k, v, t[0].1);
        assert Put(t, k, v) == [t[0]] + rest;
        ConsDistinctValues(t[0], rest);
      }
    }
  }

  /** The tail of a table with distinct values has distinct values, none of them its head's. */
  lemma TailDistinctValues<V>(t: Table<V>, v: V)
    requires t != [] && Distinct(Values(t)) && v !in Values(t)
    ensures Distinct(Values(t[1..])) && v !in Values(t[1..]) && t[0].1 !in Values(t[1..])
    ensures t[0].1 != v
  {
    var vs := Values(t);
    assert Values(t[1..]) == vs[1..];
    assert vs[0] == t[0].1;
  }

  /** Put of v adds no value other than v. */
  lemma PutAvoidsValue<V>(t: Table<V>, k: string, v: V, x: V)
    requires x !in Values(t) && x != v
    ensures x !in Values(Put(t, k, v))
  {
    var r := Put(t, k, v);
    forall j | 0 <= j < |r| ensures r[j].1 != x {
      PutEntries(t, k, v, r[j]);
      if r[j] in t {
        var m :| 0 <= m < |t| && t[m] == r[j];
        assert Values(t)[m] == r[j].1;
      }
    }
  }

  /** An entry whose value is not among the rest's distinct values keeps them distinct. */
  lemma ConsDistinctValues<V>(e: (string, V), rest: Table<V>)
    requires Distinct(Values(rest)) && e.1 !in Values(rest)
    ensures Distinct(Values([e] + rest))
  {
    var r := [e] + rest;
    forall a, b | 0 <= a < b < |r| ensures Values(r)[a] != Values(r)[b] {
      assert Values(r)[b] == Values(rest)[b - 1];
      if a > 0 { assert Values(r)[a] == Values(rest)[a - 1]; }
    }
  }

  /** The table without the entry for key `k`, the others in their order. */
  function Without<V(!new)>(t: Table<V>, k: string): (r: Table<V>)
    ensures forall e :: e in r <==> e in t && e.0 != k
    ensures k !in Keys(t) ==> r == t
  {
    if t == [] then []
    else if t[0].0 == k then Without(t[1..], k)
    else [t[0]] + Without(t[1..], k)
  }

  /**
   * Removing the key of entry i from a dictionary removes exactly that entry
   * and keeps every other entry in its place in the order.
   */
  lemma {:induction false} WithoutAt<V(!new)>(t: Table<V>, i: nat)
    requires DistinctKeys(t) && i < |t|
    ensures Without(t, t[i].0) == t[..i] + t[i + 1..]
  {
    var k := t[i].0;
    var ks := Keys(t);
    var rest := t[1..];
    assert Keys(rest) == ks[1..];
    assert DistinctKeys(rest) by {
      forall a, b | 0 <= a < b < |ks[1..]| ensures ks[1..][a] != ks[1..][b] {
        assert ks[a + 1] != ks[b + 1];
      }
    }
    if i == 0 {
      assert k !in Keys(rest) by {
        forall j | 0 <= j < |t| - 1 ensures ks[1..][j] != k {
          assert ks[j + 1] != ks[0];
        }
      }
      assert Without(t, k) == Without(rest, k) == rest;
    } else {
      assert t[0].0 != k by { assert ks[0] != ks[i]; }
      assert rest[i - 1] == t[i];
      WithoutAt(rest, i - 1);
      assert Without(t, k) == [t[0]] + Without(rest, k);
      DropAfterHead(t, i);
    }
  }

  /** Dropping element i > 0 of a sequence keeps its head in front. */
  lemma DropAfterHead<T>(s: seq<T>, i: nat)
    requires 0 < i < |s|
    ensures s[..i] + s[i + 1..] == [s[0]] + (s[1..][..i - 1] + s[1..][i..])
  {
    assert s[..i] == [s[0]] + s[1..][..i - 1];
  }

  /**
   * The comprehension `{v: k for k, v in t.items()}`: each value becomes a key
   * mapped to its key; when values repeat, the entry inserted last gives the
   * value while the key keeps the position where it first appeared.
   */
  function Invert(t: Table<string>): Table<string> {
    if t == [] then []
    else Put(Invert(t[..|t| - 1]), t[|t| - 1].1, t[|t| - 1].0)
  }

  /** A value of a non-empty table is a value of its front or its last value. */
  lemma {:induction false} ValuesLast<V>(t: Table<V>, h: V)
    requires t != []
    ensures h in Values(t) <==> h in Values(t[..|t| - 1]) || h == t[|t| - 1].1
  {
    var n := |t| - 1;
    if h in Values(t) {
      var i :| 0 <= i < |t| && Values(t)[i] == h;
      if i < n { assert Values(t[..n])[i] == h; }
    }
    if h in Values(t[..n]) {
      var i :| 0 <= i < n && Values(t[..n])[i] == h;
      assert Values(t)[i] == h;
    }
    if h == t[n].1 { assert Values(t)[n] == h; }
  }

  /** The keys of the inverted table are the values of the table. */
  lemma {:induction false} InvertKeys(t: Table<string>, h: string)
    ensures h in Keys(Invert(t)) <==> h in Values(t)
  {
    if t != [] {
      var n := |t| - 1;
      InvertKeys(t[..n], h);
      PutKeys(Invert(t[..n]), t[n].1, t[n].0);
      ValuesLast(t, h);
    }
  }

  /** The inverted table has distinct keys: it models a dictionary. */
  lemma {:induction false} InvertDistinctKeys(t: Table<string>)
    ensures DistinctKeys(Invert(t))
  {
    if t != [] {
      var n := |t| - 1;
      InvertDistinctKeys(t[..n]);
      PutDistinctKeys(Invert(t[..n]), t[n].1, t[n].0);
    }
  }

  /** Each value of the inverted table maps to the key of its last occurrence. */
  lemma {:induction false} InvertLastWins(t: Table<string>, i: nat)
    requires i < |t|
    requires forall j :: i < j < |t| ==> t[j].1 != t[i].1
    ensures Lookup(Invert(t), t[i].1) == Some(t[i].0)
  {
    var n := |t| - 1;
    var prefix := t[..n];
    assert Invert(t) == Put(Invert(prefix), t[n].1, t[n].0);
    PutLookup(Invert(prefix), t[n].1, t[n].0, t[i].1);
    if i < n {
      assert t[n].1 != t[i].1 && prefix[i] == t[i];
      forall j | i < j < n ensures prefix[j].1 != prefix[i].1 {
        assert prefix[j] == t[j];
      }
      InvertLastWins(prefix, i);
    } else {
      assert i == n;
    }
  }

  /**
   * Inverting a table with distinct keys gives a table with distinct values
   * (no two values share a key), and every value is one of the original keys.
   */
  lemma {:induction false} InvertInjective(t: Table<string>)
    requires DistinctKeys(t)
    ensures Distinct(Values(Invert(t)))
    ensures forall e :: e in Invert(t) ==> e.1 in Keys(t)
  {
    if t != [] {
      var n := |t| - 1;
      var prefix := t[..n];
      var inv := Invert(prefix);
      assert Keys(prefix) == Keys(t)[..n];
      InvertInjective(prefix);
      assert t[n].0 !in Keys(prefix) by {
        forall m | 0 <= m < n ensures Keys(prefix)[m] != t[n].0 {
          assert Keys(t)[m] != Keys(t)[n];
        }
      }
      assert t[n].0 !in Values(inv) by {
        forall j | 0 <= j < |inv| ensures Values(inv)[j] != t[n].0 {
          assert inv[j] in inv;
        }
      }
      PutDistinctValues(inv, t[n].1, t[n].0);
      forall e | e in Invert(t) ensures e.1 in Keys(t) {
        PutEntries(inv, t[n].1, t[n].0, e);
        if e != (t[n].1, t[n].0) {
          assert e.1 in Keys(t)[..n];
        } else {
          assert Keys(t)[n] == e.1;
        }
      }
    }
  }

  /** InvertLastWins for every entry, and InvertInjective when its premise holds. */
  lemma InvertFacts(t: Table<string>)
    ensures forall i :: 0 <= i < |t| && (forall j :: i < j < |t| ==> t[j].1 != t[i].1) ==>
              Lookup(Invert(t), t[i].1) == Some(t[i].0)
    ensures DistinctKeys(t) ==> Distinct(Values(Invert(t)))
  {
    forall i | 0 <= i < |t| && (forall j :: i < j < |t| ==> t[j].1 != t[i].1)
      ensures Lookup(Invert(t), t[i].1) == Some(t[i].0)
    {
      InvertLastWins(t, i);
    }
    if DistinctKeys(t) { InvertInjective(t); }
  }
}

=== FILE: wrappers.dfy ===
/** Optional values and results that either succeed or carry an error. */
module Wrappers {

  datatype Option<+T> = None | Some(value: T)

  datatype Result<+R, +E> = Success(value: R) | Failure(error: E)
}
